=== FILE: README.md ===
# SmartSpend expense tracker — a Dafny model of its core

SmartSpend is a single-page expense tracker. It keeps a list of expense records in
the browser's storage and shows three dashboard figures (total, count, average), a
per-category breakdown and a seven-day spending series. New expenses come either
from a manual form or from a free-text sentence that a remote AI parser turns into
a record. This project models the parts of that program that hold its logic:

- `types.dfy` (module `Types`): the seven expense categories and their string
  values, transactions, drafts (a transaction without an identifier) and AI
  insights;
- `records.dfy` (module `Records`): JavaScript plain objects used as dictionaries,
  modelled as insertion-ordered association lists with `Get` and `Put`;
- `text.dfy` (module `Text`): `split`, `join` and character replacement;
- `codec.dfy` (module `Codec`): the stored text of the list and its parser;
- `store.dfy` (module `Store`): the seed list, loading and mirroring to storage,
  adding, deleting, and the guard in front of the insight request;
- `dashboard.dfy` (module `Dashboard`): the derived figures;
- `modal.dfy` (module `AddModal`): the add-expense dialog, both paths;
- `wrappers.dfy` (module `Wrappers`): `Option` and `Result`.

Amounts are integers in hundredths of a rupee, so sums are exact. The average is
a `real`. Clocks, the storage API, the number parser and the AI service are
parameters of the functions that use them.

The code is looser than its declared types and the wording of its prompts suggest.
The model follows the code:

- A stored text that does not parse makes startup fail. Nothing catches the parse
  error, so there is no fallback to the seed.
- An AI result is accepted whenever its amount is present and non-zero, so a
  negative amount gets through.
- An AI category string outside the seven values is kept as it is, because the
  cast does not check it.
- A date or category that is the empty string is replaced by its fallback just as
  a missing one is, since `||` treats `""` as false.

## Model

| member | source | states |
|---|---|---|
| Types.CategoriesEnumerated | types.ts:2-10 | there are seven categories, every one is listed, their string values are pairwise distinct, and `Other` is among them |
| Types.CategoryNameRoundTrip | types.ts:2-10 | reading a category back from its string value returns the same category, so string values identify categories |
| Types.ParseCategory | types.ts:2-10 | a string is recognised exactly when it is the value of some category, and then as that category |
| Types.WithIdKeepsDraft | types.ts:12-18 | a record is its draft plus an identifier: attaching an identifier keeps every draft field, and every record is rebuilt from its draft and identifier |
| Types.ParseInsightKind | types.ts:25-29 | exactly the three strings "saving", "warning" and "tip" are insight kinds, each naming its kind |
| Store.SeedShape | App.tsx:10-16 | the seed holds five records with identifiers "1" to "5", pairwise distinct, each with a listed category |
| Store.Load | App.tsx:19-22 | a missing or empty slot gives the seed; a non-empty slot gives its parsed list, and startup fails exactly when the parser rejects the text |
| Store.LoadRejectsLeadingZero | App.tsx:21 | an amount written with a leading zero, which `JSON.parse` refuses, makes startup fail |
| Store.LoadRejectsUnknownEscape | App.tsx:21 | a string escape other than `\"` and `\\` makes startup fail |
| Store.Save | App.tsx:27-29 | the written text is never empty, so a saved list, even an empty one, is never replaced by the seed |
| Codec.DecodeEncode | App.tsx:21-28 | parsing the stored text of a list gives back the same list, with order and fields preserved |
| Store.LoadSave | App.tsx:19-29 | loading what was saved yields exactly the saved list, an empty list included |
| Store.Mount | App.tsx:19-29 | startup succeeds exactly when loading does; the list is the loaded one, storage mirrors it, there are no insights and nothing is loading |
| Store.Commit | App.tsx:27-29 | after every change of the list, storage holds that list and the insight state is untouched |
| Store.Reload | App.tsx:19-29 | restarting from a mirrored state shows the same list |
| Store.Add | App.tsx:44-47 | the new record goes in front, carries the given identifier and the draft's fields, and the old list follows unchanged |
| Store.Delete | App.tsx:49-51 | a record survives exactly when its identifier differs, survivors keep their multiplicity, and their order is kept |
| Store.DeleteAbsent | App.tsx:49-51 | deleting an identifier that no record carries changes nothing |
| Store.DeleteIdempotent | App.tsx:49-51 | deleting twice is the same as deleting once |
| Store.DeleteRemovesOne | App.tsx:49-51 | with unique identifiers, deleting a present identifier removes exactly one record |
| Store.AddThenDelete | App.tsx:44-51 | deleting the record just added under a fresh identifier restores the previous list |
| Store.UndoAdd | App.tsx:44-51 | the same at the level of the whole state, storage included |
| Store.AddKeepsUnique | App.tsx:44-47 | adding under a fresh identifier keeps identifiers unique |
| Store.DeleteKeepsUnique | App.tsx:49-51 | deleting keeps identifiers unique |
| Store.BeginFetchInsights | App.tsx:31-34 | with an empty list nothing changes and no request is made; otherwise the loading flag goes up and the request carries the current list |
| Store.CompleteFetchInsights | App.tsx:35-36 | the response replaces the insights and the loading flag goes down, with the list and storage untouched |
| Store.InsightRefresh | App.tsx:31-37 | a refresh over a non-empty list asks about exactly that list and ends with the response shown, the flag down and nothing else changed |
| Dashboard.TotalSpentAppend | components/Dashboard.tsx:13-16 | the total is additive over concatenation |
| Dashboard.TotalSpentPrepend | components/Dashboard.tsx:13-16 | a record placed in front adds exactly its amount to the total |
| Dashboard.Summary | components/Dashboard.tsx:54-63 | the count is the list length, the average times the count equals the total, and an empty list shows 0 |
| Dashboard.SummaryAfterAdd | components/Dashboard.tsx:13-16 | adding a record raises the count by one and the total by its amount |
| Dashboard.SeedSummary | components/Dashboard.tsx:13-16 | the seed list totals 1355.70 over five records, 271.14 on average |
| Dashboard.CategoryData | components/Dashboard.tsx:18-24 | one entry per category present, in order of first appearance; each entry holds the sum over the records of that category; the entries add up to the total |
| Dashboard.CategoryTotalsMatchTotal | components/Dashboard.tsx:18-24 | the breakdown sums to the total and has no more entries than there are records |
| Dashboard.InitDays | components/Dashboard.tsx:27-35 | the initialised days hold 0 for exactly the window's dates, in first-occurrence order |
| Dashboard.Tally | components/Dashboard.tsx:37-41 | the fold keeps the keys and adds to each day the sum of the records dated that day; other records are skipped |
| Dashboard.Series | components/Dashboard.tsx:26-47 | with distinct keys there is one bar per key, in key order, with the day's label and total; never more bars than keys |
| Dashboard.RecentDays | components/Dashboard.tsx:26-47 | with seven distinct dates there are exactly seven bars, oldest first, each holding the total for its date; never more than seven |
| Dashboard.SevenDays | components/Dashboard.tsx:29-43 | when distinct day numbers have distinct date texts, the series has exactly seven bars, today-6 through today in order, each holding the total of the records dated exactly that day, whatever the list |
| Dashboard.RecentDaysIgnoresOutside | components/Dashboard.tsx:37-41 | a record dated outside the window does not change the series |
| Dashboard.LabelCharacterised | components/Dashboard.tsx:44 | a label is the text after the first `-` with every later `-` turned into `/`, and empty when there is no `-` |
| Dashboard.LabelOfIsoDate | components/Dashboard.tsx:44 | the label of `YYYY-MM-DD` is `MM/DD` |
| Text.JoinSplit | components/Dashboard.tsx:44 | splitting on one character and joining with another replaces every occurrence |
| Text.JoinSplitInverse | components/Dashboard.tsx:44 | joining with the character that was split on gives back the original string |
| Records.Get | components/Dashboard.tsx:21 | a lookup finds a value exactly when the key is present |
| Records.GetFirst | components/Dashboard.tsx:21 | the value found is that of the first entry with the key |
| Records.Put | components/Dashboard.tsx:21 | after an assignment the key holds the new value and every other key is unchanged; a new key is appended at the end of the entry order |
| Records.DedupOrder | components/Dashboard.tsx:23 | the distinct keys come out in the order in which each first occurs, the order `Object.entries` reports |
| Records.ValuesSumPut | components/Dashboard.tsx:21 | an assignment changes the sum of the values by the difference between the new and the old value |
| AddModal.InitialForm | components/AddTransactionModal.tsx:12-22 | a fresh dialog has empty fields, category Food & Dining, today's date, and the parsing flag down |
| AddModal.SubmitManual | components/AddTransactionModal.tsx:24-34 | an empty amount or description does nothing; otherwise one draft carrying the parsed amount and the form's fields is added and the dialog closes |
| AddModal.OrElse | components/AddTransactionModal.tsx:45-46 | the fallback is used exactly when the value is missing or empty, or when the value equals the fallback |
| AddModal.BeginAISubmit | components/AddTransactionModal.tsx:36-40 | empty text does nothing; otherwise the flag goes up and the text is sent to the parser |
| AddModal.FinishAISubmit | components/AddTransactionModal.tsx:40-52 | an accepted result adds one draft and closes the dialog; its amount and description are as given, a non-empty category or date is kept as given, and the category is Other and the date today exactly when those fields were missing, empty or already so; a rejected result only alerts; the flag goes down on both paths |
| AddModal.SubmitAI | components/AddTransactionModal.tsx:36-53 | the whole handler: empty text does nothing; otherwise its effect is that of the parser's answer, the flag ends down and every other form field is left as it was |
| AddModal.NoSecondParse | components/AddTransactionModal.tsx:159 | the AI submit button is disabled while a parse is outstanding and enabled again once it ends |
| AddModal.ParsingFlagLifecycle | components/AddTransactionModal.tsx:39-52 | the flag is up while the request is outstanding, and afterwards the form is as before with the flag down |
| AddModal.ListedCategories | components/AddTransactionModal.tsx:24-53 | the manual form always produces a listed category; an accepted AI result produces one exactly when its category was missing, empty or listed |

## Left out

- The AI service (services/geminiService.ts): the network calls, prompts, response schema and the summary line it builds. Its answers are the parameters `parse` and `response`.
- The insight panel and the transaction list components, which only render and forward clicks.
- Floating point: amounts are integers in hundredths. `toLocaleString` and `toFixed` formatting are not modelled.
- Dates and time zones: `new Date()`, `setDate` and `toISOString` are abstracted as the parameter `dateKey`, and the form's "today" as a string parameter. The UTC day shift of `toISOString` is not modelled.
- `parseFloat` is the parameter `parseAmount`. A result of `NaN` cannot be expressed with integer amounts.
- Dashboard.RecentDays: the exact seven-bar shape is stated only when the seven dates are distinct, since `dateKey` is arbitrary; `Dashboard.SevenDays` derives it from an injective `dateKey`.
- Codec.Encode: the stored text uses a fixed key order, no whitespace and escapes only `"` and `\`. `JSON.stringify` writes an added record with `id` last and escapes more characters. Only the round trip is modelled, not byte-for-byte text.
- Store.Load: a non-empty text outside the stored layout counts as corrupt and makes startup fail, even where `JSON.parse` would return a list, as it does for `[ ]`, for a record whose keys come in another order, or for an escape such as `\n`. In the other direction, a string holding a raw control character loads although `JSON.parse` throws on it.
- An AI result with no description: the field is a plain string in the model.
- Asynchronous interleavings, such as two overlapping insight requests or a dialog closed mid-request, and React's batching of state updates.
- The `Budget` type, which nothing uses.
- The manual form's browser validation: the `required` amount, description and date inputs and the `step="0.01"` amount input stop some submissions before `handleSubmitManual` runs. `AddModal.SubmitManual` models only the handler, so it accepts, for example, an empty date. The AI button's disabled state is modelled as `AddModal.AISubmitEnabled`.
- Records.Get: JavaScript objects also have inherited properties and list integer-like keys first. A category or date such as `"constructor"` or `"toString"` finds an inherited value, and a key such as `"1"` is listed before the others. The model covers only keys that are neither inherited property names nor integer-like, which the seven categories and `YYYY-MM-DD` dates are not.
- Dashboard.RecentDays: for a record dated with an inherited property name such as `"constructor"`, the source adds an eighth entry, and a category such as `"toString"` gives a string value in the breakdown; these cases are outside the model (see `Records.Get`).
- Identifier generation (`Math.random`): the identifier is a parameter of `Store.Add`, and freshness is a precondition of the lemmas that need it.
- The insight request on first mount: it is `Store.BeginFetchInsights` applied to the result of `Store.Mount`.
- The tab switch and the text fields' change handlers of the dialog, which only copy input into the form.

=== FILE: codec.dfy ===
/** The persisted form of the transaction list: a JSON array of transaction objects in
    one fixed layout (key order `id`, `amount`, `category`, `description`, `date`; no
    whitespace; integer amounts; escapes for `"` and `\` only). It stands in for
    `JSON.stringify` and `JSON.parse`: what the store relies on is that decoding an
    encoding gives the list back and that an encoding is never the empty string. */
module Codec {
  import opened Wrappers
  import opened Types

  predicate IsDigit(c: char) {
    '0' <= c <= '9'
  }

  predicate AllDigits(s: string) {
    forall i :: 0 <= i < |s| ==> IsDigit(s[i])
  }

  function DigitChar(d: nat): (c: char)
    requires d < 10
    ensures IsDigit(c)
  {
    ('0' as int + d) as char
  }

  /** Decimal notation of a natural number, without leading zeros. */
  function NatText(n: nat): (s: string)
    ensures |s| >= 1 && AllDigits(s)
  {
    if n < 10 then [DigitChar(n)] else NatText(n / 10) + [DigitChar(n % 10)]
  }

  /** The number a string of decimal digits denotes. */
  function DigitsValue(s: string): nat
    requires AllDigits(s)
  {
    if s == [] then 0
    else DigitsValue(s[..|s| - 1]) * 10 + (s[|s| - 1] as int - '0' as int)
  }

  lemma {:induction false} DigitsValueOfNatText(n: nat)
    ensures DigitsValue(NatText(n)) == n
  {
    if n >= 10 {
      DigitsValueOfNatText(n / 10);
      var s := NatText(n);
      assert s[..|s| - 1] == NatText(n / 10);
    }
  }

  /** Length of the longest prefix of digits. */
  function DigitSpan(s: string): (k: nat)
    ensures k <= |s| && AllDigits(s[..k])
    ensures k < |s| ==> !IsDigit(s[k])
  {
    if s != [] && IsDigit(s[0]) then
      var k := 1 + DigitSpan(s[1..]);
      assert s[..k] == [s[0]] + s[1..][..k - 1];
      k
    else 0
  }

  lemma {:induction false} DigitSpanOf(ds: string, rest: string)
    requires AllDigits(ds)
    requires rest == [] || !IsDigit(rest[0])
    ensures DigitSpan(ds + rest) == |ds|
  {
    if ds != [] {
      assert (ds + rest)[0] == ds[0];
      assert (ds + rest)[1..] == ds[1..] + rest;
      DigitSpanOf(ds[1..], rest);
    }
  }

  /** Reads a run of digits as a natural number. As in JSON, a run of two or more digits
      may not start with `0`. */
  function ParseNat(s: string): (r: Option<(nat, string)>)
    ensures r.Some? ==> |r.value.1| < |s|
    ensures |s| >= 2 && s[0] == '0' && IsDigit(s[1]) ==> r.None?
  {
    var k := DigitSpan(s);
    if k == 0 || (k > 1 && s[0] == '0') then None else Some((DigitsValue(s[..k]), s[k..]))
  }

  /** Only zero is written with a leading `0`. */
  lemma {:induction false} NatTextLead(n: nat)
    ensures |NatText(n)| > 1 ==> NatText(n)[0] != '0'
    ensures n > 0 ==> NatText(n)[0] != '0'
  {
    if n >= 10 {
      NatTextLead(n / 10);
    }
  }

  function IntText(i: int): string {
    if i < 0 then "-" + NatText(-i) else NatText(i)
  }

  /** Reads an optionally negative integer. */
  function ParseInt(s: string): (r: Option<(int, string)>)
    ensures r.Some? ==> |r.value.1| < |s|
  {
    if s != [] && s[0] == '-' then
      var p :- ParseNat(s[1..]);
      var n: int := 0 - p.0 as int;
      Some((n, p.1))
    else
      var p :- ParseNat(s);
      Some((p.0, p.1))
  }

  lemma ParseNatText(n: nat, rest: string)
    requires rest == [] || !IsDigit(rest[0])
    ensures ParseNat(NatText(n) + rest) == Some((n, rest))
  {
    var ds := NatText(n);
    DigitSpanOf(ds, rest);
    NatTextLead(n);
    assert (ds + rest)[0] == ds[0];
    assert (ds + rest)[..|ds|] == ds;
    assert (ds + rest)[|ds|..] == rest;
    DigitsValueOfNatText(n);
  }

  lemma ParseMinus(s: string, n: nat, rest: string)
    requires ParseNat(s) == Some((n, rest))
    ensures ParseInt("-" + s) == Some((0 - n, rest))
  {
    assert ("-" + s)[1..] == s;
  }

  lemma ParseNegativeText(i: int, rest: string)
    requires i < 0
    requires rest == [] || !IsDigit(rest[0])
    ensures ParseInt(IntText(i) + rest) == Some((i, rest))
  {
    var s := NatText(-i) + rest;
    ParseNatText(-i, rest);
    ParseMinus(s, -i, rest);
    assert IntText(i) + rest == "-" + s;
  }

  lemma ParseNonNegativeText(i: int, rest: string)
    requires i >= 0
    requires rest == [] || !IsDigit(rest[0])
    ensures ParseInt(IntText(i) + rest) == Some((i, rest))
  {
    var s := NatText(i) + rest;
    ParseNatText(i, rest);
    assert IntText(i) + rest == s;
    assert s[0] == NatText(i)[0];
    assert IsDigit(s[0]);
  }

  lemma ParseIntText(i: int, rest: string)
    requires rest == [] || !IsDigit(rest[0])
    ensures ParseInt(IntText(i) + rest) == Some((i, rest))
  {
    if i < 0 {
      ParseNegativeText(i, rest);
    } else {
      ParseNonNegativeText(i, rest);
    }
  }

  /** String contents with `"` and `\` preceded by a backslash. */
  function Escape(s: string): string {
    if s == [] then []
    else (if s[0] == '"' || s[0] == '\\' then ['\\', s[0]] else [s[0]]) + Escape(s[1..])
  }

  function StringText(s: string): string {
    "\"" + Escape(s) + "\""
  }

  /** Reads string contents up to the closing quote. A backslash must be followed by `"`
      or `\`, which stands for itself; any other escape is rejected. */
  function ParseStringBody(s: string): (r: Option<(string, string)>)
    ensures r.Some? ==> |r.value.1| < |s|
    ensures |s| >= 2 && s[0] == '\\' && s[1] != '"' && s[1] != '\\' ==> r.None?
    decreases |s|
  {
    if s == [] then None
    else if s[0] == '"' then Some(([], s[1..]))
    else if s[0] == '\\' then
      if |s| < 2 || (s[1] != '"' && s[1] != '\\') then None
      else
        var p :- ParseStringBody(s[2..]);
        Some(([s[1]] + p.0, p.1))
    else
      var p :- ParseStringBody(s[1..]);
      Some(([s[0]] + p.0, p.1))
  }

  function ParseString(s: string): (r: Option<(string, string)>)
    ensures r.Some? ==> |r.value.1| < |s|
  {
    if s != [] && s[0] == '"' then ParseStringBody(s[1..]) else None
  }

  lemma {:induction false} ParseStringBodyText(s: string, rest: string)
    ensures ParseStringBody(Escape(s) + "\"" + rest) == Some((s, rest))
  {
    if s == [] {
      assert Escape(s) + "\"" + rest == "\"" + rest;
    } else {
      ParseStringBodyText(s[1..], rest);
      var tail := Escape(s[1..]) + "\"" + rest;
      assert [s[0]] + s[1..] == s;
      if s[0] == '"' || s[0] == '\\' {
        var e := ['\\', s[0]] + tail;
        assert Escape(s) + "\"" + rest == e;
        assert e[0] == '\\' && e[1] == s[0] && |e| >= 2;
        assert e[2..] == tail;
      } else {
        assert Escape(s) + "\"" + rest == [s[0]] + tail;
        assert ([s[0]] + tail)[1..] == tail;
      }
    }
  }

  lemma ParseStringText(s: string, rest: string)
    ensures ParseString(StringText(s) + rest) == Some((s, rest))
  {
    ParseStringBodyText(s, rest);
    assert (StringText(s) + rest)[1..] == Escape(s) + "\"" + rest;
  }

  /** Consumes the literal `lit` at the front of `s`. */
  function Expect(lit: string, s: string): (r: Option<string>)
    ensures r.Some? ==> |r.value| == |s| - |lit|
  {
    if |lit| <= |s| && s[..|lit|] == lit then Some(s[|lit|..]) else None
  }

  lemma ExpectText(lit: string, rest: string)
    ensures Expect(lit, lit + rest) == Some(rest)
  {
    assert (lit + rest)[..|lit|] == lit;
  }

  /** The object text of `t`, followed by `rest`. */
  function TransactionThen(t: Transaction, rest: string): string {
    var r6 := "}" + rest;
    var r5 := ",\"date\":" + StringText(t.date) + r6;
    var r4 := ",\"description\":" + StringText(t.description) + r5;
    var r3 := ",\"category\":" + StringText(t.category) + r4;
    var r2 := ",\"amount\":" + IntText(t.amount) + r3;
    "{\"id\":" + StringText(t.id) + r2
  }

  /** Reads `lit` followed by a string value. */
  function ParseStringField(lit: string, s: string): (r: Option<(string, string)>)
    ensures r.Some? ==> |r.value.1| < |s|
  {
    var s1 :- Expect(lit, s);
    ParseString(s1)
  }

  /** Reads `lit` followed by an integer value. */
  function ParseIntField(lit: string, s: string): (r: Option<(int, string)>)
    ensures r.Some? ==> |r.value.1| < |s|
  {
    var s1 :- Expect(lit, s);
    ParseInt(s1)
  }

  function ParseTransaction(s: string): (r: Option<(Transaction, string)>)
    ensures r.Some? ==> |r.value.1| < |s|
  {
    var id :- ParseStringField("{\"id\":", s);
    var amount :- ParseIntField(",\"amount\":", id.1);
    var category :- ParseStringField(",\"category\":", amount.1);
    var description :- ParseStringField(",\"description\":", category.1);
    var date :- ParseStringField(",\"date\":", description.1);
    var rest :- Expect("}", date.1);
    Some((Transaction(id.0, amount.0, category.0, description.0, date.0), rest))
  }

  lemma StringFieldText(lit: string, v: string, rest: string)
    ensures ParseStringField(lit, lit + StringText(v) + rest) == Some((v, rest))
  {
    ExpectText(lit, StringText(v) + rest);
    assert lit + StringText(v) + rest == lit + (StringText(v) + rest);
    ParseStringText(v, rest);
  }

  lemma IntFieldText(lit: string, i: int, rest: string)
    requires rest == [] || !IsDigit(rest[0])
    ensures ParseIntField(lit, lit + IntText(i) + rest) == Some((i, rest))
  {
    ExpectText(lit, IntText(i) + rest);
    assert lit + IntText(i) + rest == lit + (IntText(i) + rest);
    ParseIntText(i, rest);
  }

  lemma ParseTransactionText(t: Transaction, rest: string)
    ensures ParseTransaction(TransactionThen(t, rest)) == Some((t, rest))
  {
    var r6 := "}" + rest;
    var r5 := ",\"date\":" + StringText(t.date) + r6;
    var r4 := ",\"description\":" + StringText(t.description) + r5;
    var r3 := ",\"category\":" + StringText(t.category) + r4;
    var r2 := ",\"amount\":" + IntText(t.amount) + r3;
    StringFieldText("{\"id\":", t.id, r2);
    IntFieldText(",\"amount\":", t.amount, r3);
    StringFieldText(",\"category\":", t.category, r4);
    StringFieldText(",\"description\":", t.description, r5);
    StringFieldText(",\"date\":", t.date, r6);
    ExpectText("}", rest);
  }

  /** The objects of a non-empty array, comma-separated, followed by `rest`. */
  function ItemsThen(xs: seq<Transaction>, rest: string): string
    requires |xs| >= 1
  {
    if |xs| == 1 then TransactionThen(xs[0], rest)
    else TransactionThen(xs[0], "," + ItemsThen(xs[1..], rest))
  }

  /** Reads comma-separated objects up to and including the closing bracket. */
  function ParseItems(s: string): (r: Option<(seq<Transaction>, string)>)
    decreases |s|
  {
    var first :- ParseTransaction(s);
    var rest := first.1;
    if rest != [] && rest[0] == ',' then
      var more :- ParseItems(rest[1..]);
      Some(([first.0] + more.0, more.1))
    else if rest != [] && rest[0] == ']' then
      Some(([first.0], rest[1..]))
    else None
  }

  lemma ParseItemsLast(t: Transaction, rest: string)
    ensures ParseItems(TransactionThen(t, "]" + rest)) == Some(([t], rest))
  {
    ParseTransactionText(t, "]" + rest);
    assert ("]" + rest)[1..] == rest;
  }

  lemma ParseItemsCons(t: Transaction, tail: string, ts: seq<Transaction>, rest: string)
    requires ParseItems(tail) == Some((ts, rest))
    ensures ParseItems(TransactionThen(t, "," + tail)) == Some(([t] + ts, rest))
  {
    ParseTransactionText(t, "," + tail);
    assert ("," + tail)[1..] == tail;
  }

  lemma ItemsThenUnfold(xs: seq<Transaction>, rest: string)
    requires |xs| >= 1
    ensures |xs| == 1 ==> ItemsThen(xs, rest) == TransactionThen(xs[0], rest)
    ensures |xs| > 1 ==> ItemsThen(xs, rest) == TransactionThen(xs[0], "," + ItemsThen(xs[1..], rest))
  {
  }

  lemma ConsSplit(xs: seq<Transaction>)
    requires |xs| >= 1
    ensures |xs| == 1 ==> [xs[0]] == xs
    ensures [xs[0]] + xs[1..] == xs
  {
  }

  lemma {:induction false} ParseItemsText(xs: seq<Transaction>, rest: string)
    requires |xs| >= 1
    ensures ParseItems(ItemsThen(xs, "]" + rest)) == Some((xs, rest))
    decreases |xs|
  {
    ItemsThenUnfold(xs, "]" + rest);
    ConsSplit(xs);
    if |xs| == 1 {
      ParseItemsLast(xs[0], rest);
    } else {
      ParseItemsText(xs[1..], rest);
      ParseItemsCons(xs[0], ItemsThen(xs[1..], "]" + rest), xs[1..], rest);
    }
  }

  /** `JSON.stringify` of the list. The result is never empty, so it is always truthy. */
  function Encode(xs: seq<Transaction>): (text: string)
    ensures |text| >= 2 && text[0] == '['
  {
    if xs == [] then "[]" else "[" + ItemsThen(xs, "]")
  }

  /** The parser for the stored layout, standing in for `JSON.parse`. It accepts every
      text `Encode` writes. It gives `None` for JSON in another layout that `JSON.parse`
      would accept (whitespace, another key order, fractional amounts, escapes other than
      `\"` and `\\`), and for texts `JSON.parse` rejects as well (a leading zero in an
      amount, an unknown escape). The one kind of text it accepts where `JSON.parse`
      throws is a string holding a raw control character, which `Encode` writes as is. */
  function Decode(text: string): Option<seq<Transaction>> {
    var body :- Expect("[", text);
    if body == "]" then Some([])
    else
      var items :- ParseItems(body);
      if items.1 == [] then Some(items.0) else None
  }

  /** An array whose first object does not parse is rejected. */
  lemma DecodeBadFirst(body: string)
    requires body != "]" && ParseTransaction(body) == None
    ensures Decode("[" + body) == None
  {
    ExpectText("[", body);
  }

  /** An object whose amount does not parse is rejected. */
  lemma TransactionBadAmount(id: string, r2: string)
    requires ParseIntField(",\"amount\":", r2) == None
    ensures ParseTransaction("{\"id\":" + StringText(id) + r2) == None
  {
    StringFieldText("{\"id\":", id, r2);
  }

  /** An amount written with a leading zero, which JSON forbids, does not parse. */
  lemma AmountRejectsLeadingZero(d: char, rest: string)
    requires IsDigit(d)
    ensures ParseIntField(",\"amount\":", ",\"amount\":0" + [d] + rest) == None
  {
    var num := "0" + [d] + rest;
    assert ",\"amount\":0" + [d] + rest == ",\"amount\":" + num;
    ExpectText(",\"amount\":", num);
    assert num[0] == '0' && num[1] == d;
  }

  lemma TransactionRejectsLeadingZero(id: string, d: char, rest: string)
    requires IsDigit(d)
    ensures ParseTransaction("{\"id\":" + StringText(id) + ",\"amount\":0" + [d] + rest) == None
  {
    var r2 := ",\"amount\":0" + [d] + rest;
    assert "{\"id\":" + StringText(id) + ",\"amount\":0" + [d] + rest
        == "{\"id\":" + StringText(id) + r2;
    AmountRejectsLeadingZero(d, rest);
    TransactionBadAmount(id, r2);
  }

  /** An array whose first amount has a leading zero is rejected. */
  lemma DecodeRejectsLeadingZero(body: string, id: string, d: char, rest: string)
    requires IsDigit(d)
    requires body == "{\"id\":" + StringText(id) + ",\"amount\":0" + [d] + rest
    ensures Decode("[" + body) == None
  {
    TransactionRejectsLeadingZero(id, d, rest);
    assert body[1] == '"';
    DecodeBadFirst(body);
  }

  /** An escape other than `\"` and `\\` is rejected. JSON forbids most of them; the ones
      it allows, such as `\n`, lie outside the stored layout. */
  lemma DecodeRejectsEscape(body: string, c: char, rest: string)
    requires c != '"' && c != '\\'
    requires body == "{\"id\":\"\\" + [c] + rest
    ensures Decode("[" + body) == None
  {
    var field := "\"\\" + [c] + rest;
    assert body == "{\"id\":" + field;
    assert ParseTransaction(body) == None by {
      ExpectText("{\"id\":", field);
      assert field[1..] == "\\" + [c] + rest;
    }
    assert body[1] == '"';
    DecodeBadFirst(body);
  }

  /** Decoding an encoding gives back the same list, order and fields included. */
  lemma DecodeEncode(xs: seq<Transaction>)
    ensures Decode(Encode(xs)) == Some(xs)
  {
    if xs == [] {
      ExpectText("[", "]");
    } else {
      var body := ItemsThen(xs, "]");
      ExpectText("[", body);
      ParseItemsText(xs, []);
      assert "]" + [] == "]";
      assert body[0] == '{';
    }
  }
}

=== FILE: dashboard.dfy ===
/** The dashboard's derived figures (components/Dashboard.tsx): total, count and
    average, the per-category breakdown, and the seven-day spending series. All are
    recomputed from the current list. */
module Dashboard {
  import opened Wrappers
  import opened Types
  import opened Records
  import Text
  import Store

  /** The running total of the amounts, accumulated left to right from 0. */
  function TotalSpent(xs: seq<Transaction>): int {
    if xs == [] then 0 else TotalSpent(xs[..|xs| - 1]) + xs[|xs| - 1].amount
  }

  /** The string fields the dashboard groups by. */
  datatype Field = CategoryField | DateField

  function FieldOf(t: Transaction, f: Field): string {
    match f
    case CategoryField => t.category
    case DateField => t.date
  }

  /** Reference definition: the sum of the amounts of the records whose field `f`
      equals `k`. */
  function SumWhere(xs: seq<Transaction>, f: Field, k: string): int {
    if xs == [] then 0
    else (if FieldOf(xs[0], f) == k then xs[0].amount else 0) + SumWhere(xs[1..], f, k)
  }

  lemma SnocSplit(xs: seq<Transaction>)
    requires xs != []
    ensures xs == xs[..|xs| - 1] + [xs[|xs| - 1]]
  {
  }

  /** The values of field `f` that occur in the list. */
  function ValuesOf(xs: seq<Transaction>, f: Field): set<string> {
    set t | t in xs :: FieldOf(t, f)
  }

  /** The value list of field `f`, in list order. */
  function FieldSeq(xs: seq<Transaction>, f: Field): seq<string> {
    seq(|xs|, i requires 0 <= i < |xs| => FieldOf(xs[i], f))
  }

  /** Appending a record adds its amount to the sum of its own group only. */
  lemma {:induction false} SumWhereSnoc(xs: seq<Transaction>, t: Transaction, f: Field, k: string)
    ensures SumWhere(xs + [t], f, k) == SumWhere(xs, f, k) + (if FieldOf(t, f) == k then t.amount else 0)
  {
    if xs != [] {
      assert (xs + [t])[1..] == xs[1..] + [t];
      SumWhereSnoc(xs[1..], t, f, k);
    }
  }

  /** A group no record belongs to sums to 0. */
  lemma {:induction false} SumWhereAbsent(xs: seq<Transaction>, f: Field, k: string)
    requires k !in ValuesOf(xs, f)
    ensures SumWhere(xs, f, k) == 0
  {
    if xs != [] {
      assert xs[0] in xs;
      assert ValuesOf(xs[1..], f) <= ValuesOf(xs, f) by {
        forall v | v in ValuesOf(xs[1..], f) ensures v in ValuesOf(xs, f) {
          var t :| t in xs[1..] && FieldOf(t, f) == v;
          assert t in xs;
        }
      }
      SumWhereAbsent(xs[1..], f, k);
    }
  }

  /** The total is additive over concatenation. */
  lemma {:induction false} TotalSpentAppend(xs: seq<Transaction>, ys: seq<Transaction>)
    ensures TotalSpent(xs + ys) == TotalSpent(xs) + TotalSpent(ys)
    decreases |ys|
  {
    if ys == [] {
      assert xs + ys == xs;
    } else {
      var init := ys[..|ys| - 1];
      assert (xs + ys)[..|xs + ys| - 1] == xs + init;
      assert (xs + ys)[|xs + ys| - 1] == ys[|ys| - 1];
      TotalSpentAppend(xs, init);
    }
  }

  /** A newly added record (placed in front) adds exactly its amount to the total. */
  lemma TotalSpentPrepend(t: Transaction, xs: seq<Transaction>)
    ensures TotalSpent([t] + xs) == t.amount + TotalSpent(xs)
  {
    TotalSpentAppend([t], xs);
    assert [t][..0] == [];
  }

  /** The three figures on the summary cards. */
  datatype Stats = Stats(total: int, count: nat, average: real)

  /** Total, count and average; the average of an empty list is 0 rather than a
      division by zero. */
  function Summary(xs: seq<Transaction>): (s: Stats)
    ensures s.total == TotalSpent(xs) && s.count == |xs|
    ensures s.count > 0 ==> s.average * (s.count as real) == s.total as real
    ensures s.count == 0 ==> s.total == 0 && s.average == 0.0
  {
    var total := TotalSpent(xs);
    if |xs| > 0 then Stats(total, |xs|, total as real / |xs| as real)
    else Stats(total, 0, 0.0)
  }

  lemma FieldsSnoc(init: seq<Transaction>, t: Transaction, f: Field)
    ensures FieldSeq(init + [t], f) == FieldSeq(init, f) + [FieldOf(t, f)]
  {
  }

  lemma ValuesOfSnoc(init: seq<Transaction>, t: Transaction, f: Field, k: string)
    ensures k in ValuesOf(init + [t], f) <==> k in ValuesOf(init, f) || k == FieldOf(t, f)
  {
    var xs := init + [t];
    if k in ValuesOf(xs, f) {
      var u :| u in xs && FieldOf(u, f) == k;
      assert u in init || u == t;
    }
    if k in ValuesOf(init, f) {
      var u :| u in init && FieldOf(u, f) == k;
      assert u in xs;
    }
    assert t in xs;
  }

  /** One step of the loop: fold the record `t` into the running breakdown `p`. */
  function AddTo(p: Rec<int>, t: Transaction): Rec<int> {
    Put(p, t.category, Get(p, t.category).GetOr(0) + t.amount)
  }

  /** Folding `t` into the breakdown of `init` gives the keys of the breakdown of
      `init + [t]`; the next two lemmas do the same for the values and the sum. */
  lemma CategoryStepKeys(p: Rec<int>, init: seq<Transaction>, t: Transaction)
    requires DistinctKeys(p) && Keys(p) == Dedup(FieldSeq(init, CategoryField))
    ensures DistinctKeys(AddTo(p, t))
    ensures Keys(AddTo(p, t)) == Dedup(FieldSeq(init + [t], CategoryField))
  {
    var xs := init + [t];
    FieldsSnoc(init, t, CategoryField);
    assert FieldSeq(xs, CategoryField)[..|xs| - 1] == FieldSeq(init, CategoryField);
    PutKeepsDistinct(p, t.category, Get(p, t.category).GetOr(0) + t.amount);
  }

  /** The breakdown's entry for `k`, as the reference definition gives it. */
  function Expected(xs: seq<Transaction>, k: string): Option<int> {
    if k in ValuesOf(xs, CategoryField) then Some(SumWhere(xs, CategoryField, k)) else None
  }

  /** The reference entry after appending `t`: its own category grows by its amount,
      every other stays as it was. */
  lemma ExpectedSnoc(init: seq<Transaction>, t: Transaction, k: string)
    ensures Expected(init + [t], k) ==
              if k == t.category then Some(Expected(init, k).GetOr(0) + t.amount) else Expected(init, k)
  {
    ValuesOfSnoc(init, t, CategoryField, k);
    SumWhereSnoc(init, t, CategoryField, k);
    if k !in ValuesOf(init, CategoryField) {
      SumWhereAbsent(init, CategoryField, k);
    }
  }

  lemma AddToGet(p: Rec<int>, t: Transaction, k: string)
    ensures Get(AddTo(p, t), k) ==
              if k == t.category then Some(Get(p, k).GetOr(0) + t.amount) else Get(p, k)
  {
  }

  lemma CategoryStepValueAt(p: Rec<int>, init: seq<Transaction>, t: Transaction, k: string)
    requires Get(p, k) == Expected(init, k)
    ensures Get(AddTo(p, t), k) == Expected(init + [t], k)
  {
    ExpectedSnoc(init, t, k);
    AddToGet(p, t, k);
  }

  lemma CategoryStepValues(p: Rec<int>, init: seq<Transaction>, t: Transaction)
    requires forall k :: Get(p, k) == Expected(init, k)
    ensures forall k :: Get(AddTo(p, t), k) == Expected(init + [t], k)
  {
    forall k ensures Get(AddTo(p, t), k) == Expected(init + [t], k) {
      CategoryStepValueAt(p, init, t, k);
    }
  }

  lemma CategoryStepSum(p: Rec<int>, init: seq<Transaction>, t: Transaction)
    requires ValuesSum(p) == TotalSpent(init)
    ensures ValuesSum(AddTo(p, t)) == TotalSpent(init + [t])
  {
    var xs := init + [t];
    assert xs[..|xs| - 1] == init;
    ValuesSumPut(p, t.category, Get(p, t.category).GetOr(0) + t.amount);
  }

  /** The per-category breakdown, as the pie chart receives it: one entry per category
      present, in order of first appearance, with the category's total. The existing
      value is read with `|| 0`, which only changes a missing value. */
  function CategoryData(xs: seq<Transaction>): (r: Rec<int>)
    ensures DistinctKeys(r)
    ensures Keys(r) == Dedup(FieldSeq(xs, CategoryField))
    ensures forall k :: Get(r, k) == Expected(xs, k)
    ensures ValuesSum(r) == TotalSpent(xs)
  {
    if xs == [] then
      assert FieldSeq(xs, CategoryField) == [];
      assert ValuesOf(xs, CategoryField) == {};
      []
    else
      var init := xs[..|xs| - 1];
      var t := xs[|xs| - 1];
      SnocSplit(xs);
      var p := CategoryData(init);
      CategoryStepKeys(p, init, t);
      CategoryStepValues(p, init, t);
      CategoryStepSum(p, init, t);
      AddTo(p, t)
  }

  /** The category totals add up to the overall total. */
  lemma CategoryTotalsMatchTotal(xs: seq<Transaction>)
    ensures ValuesSum(CategoryData(xs)) == TotalSpent(xs)
    ensures |CategoryData(xs)| <= |xs|
  {
  }

  /** The dates of the seven days ending on day `today`, oldest first (the loop runs
      `i` from 6 down to 0 and visits `today - i`). `dateKey(n)` stands for the
      `YYYY-MM-DD` text of day number `n`. */
  function WindowKeys(dateKey: int -> string, today: int): (ks: seq<string>)
    ensures |ks| == 7
  {
    seq(7, j => dateKey(today - 6 + j))
  }

  /** The seven days, each set to 0 in turn. */
  function InitDays(keys: seq<string>): (r: Rec<int>)
    ensures Keys(r) == Dedup(keys)
    ensures forall k :: Get(r, k) == if k in keys then Some(0) else None
  {
    if keys == [] then []
    else
      var init := keys[..|keys| - 1];
      assert keys == init + [keys[|keys| - 1]];
      Put(InitDays(init), keys[|keys| - 1], 0)
  }

  /** Folding the list into the days: a record whose date is one of the keys adds its
      amount to that day, any other record is skipped. */
  function Tally(days: Rec<int>, xs: seq<Transaction>): (r: Rec<int>)
    ensures Keys(r) == Keys(days)
    ensures forall k :: Get(r, k).Some? <==> Get(days, k).Some?
    ensures forall k :: Get(days, k).Some? ==>
              Get(r, k).value == Get(days, k).value + SumWhere(xs, DateField, k)
  {
    if xs == [] then days
    else
      var init := xs[..|xs| - 1];
      var t := xs[|xs| - 1];
      var p := Tally(days, init);
      assert init + [t] == xs;
      assert forall k :: SumWhere(xs, DateField, k) ==
               SumWhere(init, DateField, k) + (if t.date == k then t.amount else 0) by {
        forall k ensures SumWhere(xs, DateField, k) ==
                         SumWhere(init, DateField, k) + (if t.date == k then t.amount else 0) {
          SumWhereSnoc(init, t, DateField, k);
        }
      }
      TallyStep(p, t)
  }

  /** One iteration of the fold: `if (days[t.date] !== undefined) days[t.date] += t.amount`. */
  function TallyStep(days: Rec<int>, t: Transaction): Rec<int> {
    match Get(days, t.date)
    case Some(v) => Put(days, t.date, v + t.amount)
    case None => days
  }

  /** One bar of the seven-day chart. */
  datatype DayBar = DayBar(dayLabel: string, amount: int)

  /** The chart label of a date: the parts after the first `-`, joined by `/`. */
  function Label(date: string): string {
    Text.Join(Text.Split(date, '-')[1..], '/')
  }

  /** The bars for the entries of a record, in entry order. */
  function Bars(r: Rec<int>): (bars: seq<DayBar>)
    ensures |bars| == |r|
    ensures forall i :: 0 <= i < |r| ==> bars[i] == DayBar(Label(r[i].0), r[i].1)
  {
    seq(|r|, i requires 0 <= i < |r| => DayBar(Label(r[i].0), r[i].1))
  }

  /** The series for an ordered list of day keys: each key set to 0, the list folded
      in, one bar per entry. With distinct keys there is one bar per key, in key order,
      holding the total of the records dated exactly that key. */
  function Series(keys: seq<string>, xs: seq<Transaction>): (bars: seq<DayBar>)
    ensures |bars| <= |keys|
    ensures Distinct(keys) ==>
              (|bars| == |keys| &&
               forall j :: 0 <= j < |keys| ==>
                 bars[j] == DayBar(Label(keys[j]), SumWhere(xs, DateField, keys[j])))
  {
    var r := Tally(InitDays(keys), xs);
    assert |r| == |Keys(r)| == |Dedup(keys)|;
    if Distinct(keys) then
      DedupDistinct(keys);
      assert Keys(r) == keys;
      assert forall j :: 0 <= j < |keys| ==> Get(r, r[j].0) == Some(r[j].1) by {
        forall j | 0 <= j < |keys| ensures Get(r, r[j].0) == Some(r[j].1) {
          GetAtIndex(r, j);
        }
      }
      assert forall j :: 0 <= j < |keys| ==> r[j].0 == keys[j] by {
        forall j | 0 <= j < |keys| ensures r[j].0 == keys[j] {
          assert Keys(r)[j] == r[j].0;
        }
      }
      Bars(r)
    else Bars(r)
  }

  /** The seven-day series. When the seven dates are distinct it has exactly seven
      bars, oldest first, each holding the total of the records dated exactly that
      day; in any case it has at most seven. */
  function RecentDays(xs: seq<Transaction>, dateKey: int -> string, today: int): (bars: seq<DayBar>)
    ensures |bars| <= 7
    ensures Distinct(WindowKeys(dateKey, today)) ==>
              (|bars| == 7 &&
               forall j :: 0 <= j < 7 ==>
                 bars[j] == DayBar(Label(dateKey(today - 6 + j)),
                                   SumWhere(xs, DateField, dateKey(today - 6 + j))))
  {
    var keys := WindowKeys(dateKey, today);
    assert forall j :: 0 <= j < 7 ==> keys[j] == dateKey(today - 6 + j);
    Series(keys, xs)
  }

  /** Distinct day numbers have distinct date texts. */
  ghost predicate Injective(dateKey: int -> string) {
    forall a, b :: dateKey(a) == dateKey(b) ==> a == b
  }

  /** With an injective date text the series always has exactly seven bars, one per
      day from `today - 6` to `today` in that order, whatever the list. */
  lemma SevenDays(xs: seq<Transaction>, dateKey: int -> string, today: int)
    requires Injective(dateKey)
    ensures |RecentDays(xs, dateKey, today)| == 7
    ensures forall j :: 0 <= j < 7 ==>
              RecentDays(xs, dateKey, today)[j] ==
                DayBar(Label(dateKey(today - 6 + j)), SumWhere(xs, DateField, dateKey(today - 6 + j)))
  {
    var keys := WindowKeys(dateKey, today);
    assert Distinct(keys) by {
      forall i, j | 0 <= i < j < |keys| ensures keys[i] != keys[j] {
        var a, b := today - 6 + i, today - 6 + j;
        assert keys[i] == dateKey(a) && keys[j] == dateKey(b);
        assert dateKey(a) == dateKey(b) ==> a == b;
      }
    }
    var bars := RecentDays(xs, dateKey, today);
    assert |bars| == 7;
  }

  /** A record in front whose date is not one of the days is skipped; `addTransaction`
      puts each new record in front. */
  lemma {:induction false} TallySkipsOutside(days: Rec<int>, t: Transaction, xs: seq<Transaction>)
    requires t.date !in Keys(days)
    ensures Tally(days, [t] + xs) == Tally(days, xs)
    decreases |xs|
  {
    var ys := [t] + xs;
    if xs == [] {
      assert ys[..0] == [] && ys[0] == t;
      assert TallyStep(days, t) == days;
    } else {
      var init := xs[..|xs| - 1];
      assert ys[..|ys| - 1] == [t] + init;
      assert ys[|ys| - 1] == xs[|xs| - 1];
      TallySkipsOutside(days, t, init);
      assert Tally(days, ys[..|ys| - 1]) == Tally(days, init);
    }
  }

  /** A record dated outside the seven-day window contributes nothing to the series. */
  lemma RecentDaysIgnoresOutside(xs: seq<Transaction>, t: Transaction, dateKey: int -> string, today: int)
    requires t.date !in WindowKeys(dateKey, today)
    ensures RecentDays([t] + xs, dateKey, today) == RecentDays(xs, dateKey, today)
  {
    var keys := WindowKeys(dateKey, today);
    TallySkipsOutside(InitDays(keys), t, xs);
  }

  /** A date in `YYYY-MM-DD` form. */
  predicate IsIsoDate(s: string) {
    && |s| == 10
    && s[4] == '-' && s[7] == '-'
    && forall i :: 0 <= i < 10 && i != 4 && i != 7 ==> '0' <= s[i] <= '9'
  }

  /** The label is the text after the first `-` with every further `-` turned into
      `/`; a date without `-` gets an empty label. */
  lemma LabelCharacterised(date: string)
    ensures '-' !in date ==> Label(date) == ""
    ensures '-' in date ==>
              Label(date) == Text.Replace(date[Text.FirstIndex(date, '-') + 1..], '-', '/')
  {
    if '-' in date {
      var i := Text.FirstIndex(date, '-');
      Text.SplitTail(date, '-');
      Text.JoinSplit(date[i + 1..], '-', '/');
    }
  }

  /** For `YYYY-MM-DD` the label is `MM/DD`. */
  lemma LabelOfIsoDate(date: string)
    requires IsIsoDate(date)
    ensures Label(date) == date[5..7] + "/" + date[8..10]
  {
    var i := Text.FirstIndex(date, '-');
    assert i == 4;
    LabelCharacterised(date);
    var rest := date[5..];
    assert Text.Replace(rest, '-', '/') == date[5..7] + "/" + date[8..10] by {
      assert rest[2] == '-';
    }
  }

  /** Adding a record raises the count by one and the total by its amount. */
  lemma SummaryAfterAdd(xs: seq<Transaction>, d: Draft, id: string)
    ensures Summary(Store.Add(xs, d, id)).count == Summary(xs).count + 1
    ensures Summary(Store.Add(xs, d, id)).total == Summary(xs).total + d.amount
  {
    TotalSpentPrepend(WithId(d, id), xs);
  }

  /** The summary of the seed list: 1355.70 in total over five records, 271.14 on
      average (amounts in hundredths). */
  lemma SeedSummary()
    ensures Summary(Store.Seed) == Stats(135570, 5, 27114.0)
  {
    var xs := Store.Seed;
    assert TotalSpent(xs[..1]) == 4550 by {
      assert xs[..1][..0] == [];
    }
    assert TotalSpent(xs[..2]) == 124550 by {
      assert xs[..2][..1] == xs[..1];
    }
    assert TotalSpent(xs[..3]) == 131050 by {
      assert xs[..3][..2] == xs[..2];
    }
    assert TotalSpent(xs[..4]) == 132570 by {
      assert xs[..4][..3] == xs[..3];
    }
    assert TotalSpent(xs) == 135570 by {
      assert xs[..4] == xs[..|xs| - 1];
    }
  }
}

=== FILE: modal.dfy ===
/** The add-expense dialog (components/AddTransactionModal.tsx): the manual form and the
    free-text path that goes through the AI parser. */
module AddModal {
  import opened Wrappers
  import opened Types

  /** The dialog's state: the manual fields, the free text, and the parsing flag. */
  datatype Form = Form(
    amountText: string,
    description: string,
    category: Category,
    date: string,
    aiText: string,
    isParsing: bool)

  /** A fresh dialog: empty fields, category Food & Dining, date set to today. */
  function InitialForm(today: string): (f: Form)
    ensures f.category == Food && f.date == today
    ensures f.amountText == "" && f.description == "" && f.aiText == ""
    ensures !f.isParsing
  {
    Form("", "", Food, today, "", false)
  }

  /** What a handler does beyond the form: the drafts passed to `onAdd` in call order,
      whether `onClose` was called, whether the "couldn't parse" alert was shown. */
  datatype Effect = Effect(added: seq<Draft>, closed: bool, alerted: bool)

  const NoEffect := Effect([], false, false)

  /** Manual submit. An empty amount or description stops it (both are falsy); otherwise
      the parsed amount and the other fields go to `onAdd` once and the dialog closes.
      `parseAmount` stands for `parseFloat`. */
  function SubmitManual(f: Form, parseAmount: string -> int): (e: Effect)
    ensures f.amountText == "" || f.description == "" ==> e == NoEffect
    ensures f.amountText != "" && f.description != "" ==>
              && |e.added| == 1 && e.closed && !e.alerted
              && e.added[0].amount == parseAmount(f.amountText)
              && e.added[0].description == f.description
              && ParseCategory(e.added[0].category) == Some(f.category)
              && e.added[0].date == f.date
  {
    if f.amountText == "" || f.description == "" then NoEffect
    else
      CategoryNameRoundTrip(f.category);
      Effect([Draft(parseAmount(f.amountText), CategoryName(f.category), f.description, f.date)], true, false)
  }

  /** The object the parser hands back; each optional field may be missing. */
  datatype AIDraft = AIDraft(
    amount: Option<int>,
    description: string,
    category: Option<string>,
    date: Option<string>)

  /** `parsed && parsed.amount`: a result is used only when it is there and its amount
      is present and non-zero. */
  predicate Accepted(parsed: Option<AIDraft>) {
    parsed.Some? && parsed.value.amount.Some? && parsed.value.amount.value != 0
  }

  /** `v || fallback` on an optional string: a missing or empty value gives way. */
  function OrElse(v: Option<string>, fallback: string): (r: string)
    ensures r == fallback || (v.Some? && r == v.value)
    ensures r == fallback <==> v.None? || v == Some("") || v == Some(fallback)
  {
    match v
    case None => fallback
    case Some(s) => if s == "" then fallback else s
  }

  /** Start of the AI submit: empty text does nothing; otherwise the flag is raised and
      the text is sent to the parser. */
  function BeginAISubmit(f: Form): (r: (Form, Option<string>))
    ensures f.aiText == "" ==> r == (f, None)
    ensures f.aiText != "" ==> r.0 == f.(isParsing := true) && r.1 == Some(f.aiText)
  {
    if f.aiText == "" then (f, None) else (f.(isParsing := true), Some(f.aiText))
  }

  /** End of the AI submit, once the parser has answered. An accepted result becomes one
      draft (category `Other` when missing or empty, date today when missing or empty,
      amount and description as given, an unlisted category string kept as it is) and
      the dialog closes; a rejected one only raises the alert. The flag drops on both
      paths. */
  function FinishAISubmit(f: Form, parsed: Option<AIDraft>, today: string): (r: (Form, Effect))
    ensures r.0 == f.(isParsing := false)
    ensures !Accepted(parsed) ==> r.1 == Effect([], false, true)
    ensures Accepted(parsed) ==>
              && |r.1.added| == 1 && r.1.closed && !r.1.alerted
              && r.1.added[0].amount == parsed.value.amount.value
              && r.1.added[0].description == parsed.value.description
              && (r.1.added[0].category == CategoryName(Other) <==>
                    parsed.value.category in {None, Some(""), Some(CategoryName(Other))})
              && (r.1.added[0].date == today <==>
                    parsed.value.date in {None, Some(""), Some(today)})
    ensures Accepted(parsed) && parsed.value.category.Some? && parsed.value.category.value != "" ==>
              r.1.added[0].category == parsed.value.category.value
    ensures Accepted(parsed) && parsed.value.date.Some? && parsed.value.date.value != "" ==>
              r.1.added[0].date == parsed.value.date.value
  {
    var done := f.(isParsing := false);
    if Accepted(parsed) then
      var p := parsed.value;
      var d := Draft(p.amount.value, OrElse(p.category, CategoryName(Other)), p.description, OrElse(p.date, today));
      (done, Effect([d], true, false))
    else
      (done, Effect([], false, true))
  }

  /** The whole AI submit, with `parse` standing for the remote parser. */
  function SubmitAI(f: Form, parse: string -> Option<AIDraft>, today: string): (r: (Form, Effect))
    ensures f.aiText == "" ==> r == (f, NoEffect)
    ensures f.aiText != "" ==> r.0 == f.(isParsing := false) && r.1 == FinishAISubmit(f, parse(f.aiText), today).1
  {
    var (started, request) := BeginAISubmit(f);
    match request
    case None => (f, NoEffect)
    case Some(text) => FinishAISubmit(started, parse(text), today)
  }

  /** The AI form's submit button is enabled only when no parse is outstanding and the
      text is non-empty; the handler itself does not look at the flag. */
  predicate AISubmitEnabled(f: Form) {
    !f.isParsing && f.aiText != ""
  }

  /** While a parse is outstanding the button is disabled, so no second request can
      start; once the answer is in, the button is enabled again. */
  lemma NoSecondParse(f: Form, parsed: Option<AIDraft>, today: string)
    requires AISubmitEnabled(f)
    ensures !AISubmitEnabled(BeginAISubmit(f).0)
    ensures AISubmitEnabled(FinishAISubmit(BeginAISubmit(f).0, parsed, today).0)
  {
  }

  /** The parsing flag is up while the request is outstanding and down afterwards,
      whether the result was accepted or rejected; nothing else in the form changes. */
  lemma ParsingFlagLifecycle(f: Form, parsed: Option<AIDraft>, today: string)
    requires f.aiText != ""
    ensures BeginAISubmit(f).0.isParsing
    ensures FinishAISubmit(BeginAISubmit(f).0, parsed, today).0 == f.(isParsing := false)
  {
  }

  /** Every category the manual form produces is a listed one; an accepted AI result
      yields a listed category exactly when its category was missing, empty or listed. */
  lemma ListedCategories(f: Form, parseAmount: string -> int, parsed: Option<AIDraft>, today: string)
    ensures forall d :: d in SubmitManual(f, parseAmount).added ==> ParseCategory(d.category).Some?
    ensures Accepted(parsed) ==>
              var d := FinishAISubmit(f, parsed, today).1.added[0];
              var c := parsed.value.category;
              ParseCategory(d.category).Some? <==>
                (c.None? || c == Some("") || ParseCategory(c.value).Some?)
  {
    if Accepted(parsed) {
      var c := parsed.value.category;
      if c.Some? && c.value == "" {
        CategoryNameRoundTrip(Other);
      } else if c.None? {
        CategoryNameRoundTrip(Other);
      }
    }
  }
}

=== FILE: records.dfy ===
/** A JavaScript object used as a dictionary with string keys: an association list of
    its own properties whose order is insertion order. That is the order
    `Object.entries` reports for keys that are not integer-like, and lookup sees only
    own properties, so keys such as "1" or "constructor" are outside this model. */
module Records {
  import opened Wrappers
  import Text

  type Rec<V> = seq<(string, V)>

  /** The keys in `Object.entries` order. */
  function Keys<V>(r: Rec<V>): seq<string> {
    seq(|r|, i requires 0 <= i < |r| => r[i].0)
  }

  predicate Distinct<T(==)>(s: seq<T>) {
    forall i, j :: 0 <= i < j < |s| ==> s[i] != s[j]
  }

  predicate DistinctKeys<V>(r: Rec<V>) {
    Distinct(Keys(r))
  }

  /** Position of the first entry with key `k`. */
  function KeyIndex<V>(r: Rec<V>, k: string): (i: nat)
    requires k in Keys(r)
    ensures i < |r| && r[i].0 == k
    ensures forall j :: 0 <= j < i ==> r[j].0 != k
  {
    assert Keys(r) == [r[0].0] + Keys(r[1..]);
    if r[0].0 == k then 0
    else
      var j := KeyIndex(r[1..], k);
      assert forall m :: 0 < m <= j ==> r[m] == r[1..][m - 1];
      j + 1
  }

  /** Property lookup `r[k]`; `None` plays the part of `undefined`. */
  function Get<V>(r: Rec<V>, k: string): (v: Option<V>)
    ensures v.Some? <==> k in Keys(r)
  {
    if r == [] then None
    else if r[0].0 == k then
      assert Keys(r)[0] == k;
      Some(r[0].1)
    else
      assert Keys(r) == [r[0].0] + Keys(r[1..]);
      Get(r[1..], k)
  }

  /** A present key yields the value of its first entry. */
  lemma {:induction false} GetFirst<V>(r: Rec<V>, k: string)
    requires k in Keys(r)
    ensures Get(r, k) == Some(r[KeyIndex(r, k)].1)
  {
    assert Keys(r) == [r[0].0] + Keys(r[1..]);
    if r[0].0 != k {
      GetFirst(r[1..], k);
    }
  }

  lemma KeysCons<V>(e: (string, V), r: Rec<V>)
    ensures Keys([e] + r) == [e.0] + Keys(r)
  {
  }

  lemma GetCons<V>(e: (string, V), r: Rec<V>, k: string)
    ensures Get([e] + r, k) == if e.0 == k then Some(e.1) else Get(r, k)
  {
    assert ([e] + r)[1..] == r;
  }

  /** Property assignment `r[k] = v`: an existing key keeps its place and takes the new
      value, a new key is appended. */
  function Put<V>(r: Rec<V>, k: string, v: V): (r': Rec<V>)
    ensures Get(r', k) == Some(v)
    ensures forall k' :: k' != k ==> Get(r', k') == Get(r, k')
    ensures Keys(r') == if k in Keys(r) then Keys(r) else Keys(r) + [k]
  {
    if r == [] then [(k, v)]
    else
      assert r == [r[0]] + r[1..];
      KeysCons(r[0], r[1..]);
      if r[0].0 == k then
        KeysCons((k, v), r[1..]);
        GetCons((k, v), r[1..], k);
        assert forall k' :: k' != k ==> Get([(k, v)] + r[1..], k') == Get(r, k') by {
          forall k' | k' != k ensures Get([(k, v)] + r[1..], k') == Get(r, k') {
            GetCons((k, v), r[1..], k');
            GetCons(r[0], r[1..], k');
          }
        }
        [(k, v)] + r[1..]
      else
        var tail := Put(r[1..], k, v);
        KeysCons(r[0], tail);
        assert k in Keys(r) <==> k in Keys(r[1..]);
        assert [r[0].0] + (Keys(r[1..]) + [k]) == ([r[0].0] + Keys(r[1..])) + [k];
        GetCons(r[0], tail, k);
        assert forall k' :: k' != k ==> Get([r[0]] + tail, k') == Get(r, k') by {
          forall k' | k' != k ensures Get([r[0]] + tail, k') == Get(r, k') {
            GetCons(r[0], tail, k');
            GetCons(r[0], r[1..], k');
          }
        }
        [r[0]] + tail
  }

  /** Assignment keeps keys distinct. */
  lemma PutKeepsDistinct<V>(r: Rec<V>, k: string, v: V)
    requires DistinctKeys(r)
    ensures DistinctKeys(Put(r, k, v))
  {
  }

  /** In a record with distinct keys, the entry at position `i` is what lookup finds. */
  lemma {:induction false} GetAtIndex<V>(r: Rec<V>, i: int)
    requires DistinctKeys(r)
    requires 0 <= i < |r|
    ensures Get(r, r[i].0) == Some(r[i].1)
  {
    if i > 0 {
      assert Keys(r)[0] != Keys(r)[i];
      assert DistinctKeys(r[1..]) by {
        var ks := Keys(r[1..]);
        forall a, b | 0 <= a < b < |ks| ensures ks[a] != ks[b] {
          assert ks[a] == Keys(r)[a + 1] && ks[b] == Keys(r)[b + 1];
        }
      }
      GetAtIndex(r[1..], i - 1);
    }
  }

  /** The sum of the values of a numeric record. */
  function ValuesSum(r: Rec<int>): int {
    if r == [] then 0 else r[0].1 + ValuesSum(r[1..])
  }

  /** Assigning `v` to `k` changes the sum of the values by `v` minus what `k` held before
      (nothing, for a new key). */
  lemma {:induction false} ValuesSumPut(r: Rec<int>, k: string, v: int)
    ensures ValuesSum(Put(r, k, v)) == ValuesSum(r) - Get(r, k).GetOr(0) + v
  {
    if r != [] && r[0].0 != k {
      ValuesSumPut(r[1..], k, v);
    }
  }

  /** The strings of `s` without repeats, each where it first occurs. */
  function Dedup(s: seq<string>): (d: seq<string>)
    ensures forall x :: x in d <==> x in s
    ensures Distinct(d)
    ensures |d| <= |s|
  {
    if s == [] then []
    else
      var p := Dedup(s[..|s| - 1]);
      assert forall x :: x in s <==> x in s[..|s| - 1] || x == s[|s| - 1] by {
        assert s == s[..|s| - 1] + [s[|s| - 1]];
      }
      if s[|s| - 1] in p then p else p + [s[|s| - 1]]
  }

  /** The strings come out in order of their first occurrence in `s`. */
  lemma {:induction false} DedupOrder(s: seq<string>)
    ensures forall i, j :: 0 <= i < j < |Dedup(s)| ==>
              Text.FirstIndex(s, Dedup(s)[i]) < Text.FirstIndex(s, Dedup(s)[j])
  {
    if s != [] {
      var p, x := s[..|s| - 1], s[|s| - 1];
      assert s == p + [x];
      DedupOrder(p);
      var dp, d := Dedup(p), Dedup(s);
      forall i, j | 0 <= i < j < |d|
        ensures Text.FirstIndex(s, d[i]) < Text.FirstIndex(s, d[j])
      {
        assert d[i] in p by { assert d[i] == dp[i]; }
        Text.FirstIndexSnoc(p, x, d[i]);
        if j < |dp| {
          assert d[i] == dp[i] && d[j] == dp[j];
          assert d[j] in p by { assert d[j] == dp[j]; }
          Text.FirstIndexSnoc(p, x, d[j]);
        } else {
          assert d[j] == x && x !in p;
          Text.FirstIndexSnoc(p, x, x);
        }
      }
    }
  }

  /** A sequence without repeats is its own deduplication. */
  lemma {:induction false} DedupDistinct(s: seq<string>)
    requires Distinct(s)
    ensures Dedup(s) == s
  {
    if s != [] {
      var init := s[..|s| - 1];
      assert Distinct(init);
      DedupDistinct(init);
      assert s[|s| - 1] !in init by {
        forall i | 0 <= i < |init| ensures init[i] != s[|s| - 1] {
          assert init[i] == s[i];
        }
      }
      assert init + [s[|s| - 1]] == s;
    }
  }
}

=== FILE: store.dfy ===
/** The transaction store of the application shell (App.tsx): the seed list, loading
    from and mirroring to the storage slot, adding and deleting records, and the guard
    in front of the insight request. */
module Store {
  import opened Wrappers
  import opened Types
  import Codec
  import Records

  /** The five sample records shown when nothing has been stored yet. */
  const Seed: seq<Transaction> := [
    Transaction("1", 4550, "Food & Dining", "Lunch at Joe's", "2024-05-15"),
    Transaction("2", 120000, "Bills & Utilities", "Rent", "2024-05-01"),
    Transaction("3", 6500, "Shopping", "New Sneakers", "2024-05-10"),
    Transaction("4", 1520, "Transportation", "Uber ride", "2024-05-12"),
    Transaction("5", 3000, "Entertainment", "Movie tickets", "2024-05-14")
  ]

  function Ids(xs: seq<Transaction>): seq<string> {
    seq(|xs|, i requires 0 <= i < |xs| => xs[i].id)
  }

  /** No two records share an identifier. */
  predicate UniqueIds(xs: seq<Transaction>) {
    Records.Distinct(Ids(xs))
  }

  /** Some record carries identifier `id`. */
  predicate HasId(xs: seq<Transaction>, id: string) {
    id in Ids(xs)
  }

  /** `UniqueIds` and `HasId` read position by position. */
  lemma IdsAt(xs: seq<Transaction>, id: string)
    ensures UniqueIds(xs) <==> forall i, j :: 0 <= i < j < |xs| ==> xs[i].id != xs[j].id
    ensures HasId(xs, id) <==> exists i :: 0 <= i < |xs| && xs[i].id == id
  {
    assert forall i :: 0 <= i < |xs| ==> Ids(xs)[i] == xs[i].id;
  }

  lemma IdsCons(xs: seq<Transaction>)
    requires xs != []
    ensures Ids(xs) == [xs[0].id] + Ids(xs[1..])
  {
  }

  /** The seed holds five records with identifiers "1" to "5", pairwise distinct, each
      with a listed category. */
  lemma SeedShape()
    ensures |Seed| == 5
    ensures Ids(Seed) == ["1", "2", "3", "4", "5"]
    ensures UniqueIds(Seed)
    ensures forall i :: 0 <= i < |Seed| ==> HasListedCategory(Seed[i])
  {
  }

  /** The storage slot under the application's key: `None` when nothing was ever saved. */
  type Slot = Option<string>

  /** Parsing the stored text throws; nothing catches it. */
  datatype LoadError = MalformedSnapshot

  /** The initial list: the stored list when the slot holds a non-empty text, the seed
      when the slot is missing or holds the empty string (both are falsy). A non-empty
      text that `Codec.Decode` rejects counts as corrupt. */
  function Load(slot: Slot): (r: Result<seq<Transaction>, LoadError>)
    ensures slot.None? || slot == Some("") ==> r == Success(Seed)
    ensures slot.Some? && slot.value != "" ==>
              (r.Success? <==> Codec.Decode(slot.value).Some?)
    ensures slot.Some? && slot.value != "" && r.Success? ==>
              Some(r.value) == Codec.Decode(slot.value)
  {
    match slot
    case None => Success(Seed)
    case Some(text) =>
      if text == "" then Success(Seed)
      else
        match Codec.Decode(text)
        case Some(xs) => Success(xs)
        case None => Failure(MalformedSnapshot)
  }

  /** Writing the list to the slot. */
  function Save(xs: seq<Transaction>): (slot: Slot)
    ensures slot.Some? && slot.value != ""
  {
    Some(Codec.Encode(xs))
  }

  /** Loading what was saved gives the same list back, even an empty one (which does
      not fall back to the seed). */
  lemma LoadSave(xs: seq<Transaction>)
    ensures Load(Save(xs)) == Success(xs)
  {
    Codec.DecodeEncode(xs);
  }

  /** An amount written with a leading zero, on which `JSON.parse` throws, makes startup
      fail. */
  lemma LoadRejectsLeadingZero(body: string, id: string, d: char, rest: string)
    requires Codec.IsDigit(d)
    requires body == "{\"id\":" + Codec.StringText(id) + ",\"amount\":0" + [d] + rest
    ensures Load(Some("[" + body)) == Failure(MalformedSnapshot)
  {
    Codec.DecodeRejectsLeadingZero(body, id, d, rest);
  }

  /** An escape other than `\"` and `\\` makes startup fail. */
  lemma LoadRejectsUnknownEscape(body: string, c: char, rest: string)
    requires c != '"' && c != '\\'
    requires body == "{\"id\":\"\\" + [c] + rest
    ensures Load(Some("[" + body)) == Failure(MalformedSnapshot)
  {
    Codec.DecodeRejectsEscape(body, c, rest);
  }

  /** A new record built from the draft and the generated identifier goes in front. */
  function Add(prev: seq<Transaction>, d: Draft, id: string): (r: seq<Transaction>)
    ensures |r| == |prev| + 1
    ensures r[0].id == id && DraftOf(r[0]) == d
    ensures r[1..] == prev
  {
    [WithId(d, id)] + prev
  }

  /** `a` is `b` with some elements left out, the rest in their original order. */
  predicate IsSubsequence<T(==)>(a: seq<T>, b: seq<T>) {
    if a == [] then true
    else if b == [] then false
    else if a[0] == b[0] then IsSubsequence(a[1..], b[1..])
    else IsSubsequence(a, b[1..])
  }

  /** Keeps the records whose identifier differs from `id`, in their original order. */
  function Delete(prev: seq<Transaction>, id: string): (r: seq<Transaction>)
    ensures forall t: Transaction :: t in r <==> t in prev && t.id != id
    ensures forall t: Transaction :: t.id != id ==> multiset(r)[t] == multiset(prev)[t]
    ensures IsSubsequence(r, prev)
  {
    if prev == [] then []
    else
      var rest := Delete(prev[1..], id);
      assert prev == [prev[0]] + prev[1..];
      if prev[0].id == id then rest else [prev[0]] + rest
  }

  /** Deleting an identifier no record carries changes nothing. */
  lemma {:induction false} DeleteAbsent(prev: seq<Transaction>, id: string)
    requires !HasId(prev, id)
    ensures Delete(prev, id) == prev
  {
    if prev != [] {
      assert prev[0].id != id && !HasId(prev[1..], id) by {
        IdsCons(prev);
      }
      DeleteAbsent(prev[1..], id);
      assert [prev[0]] + prev[1..] == prev;
    }
  }

  /** Deleting twice is deleting once. */
  lemma DeleteIdempotent(prev: seq<Transaction>, id: string)
    ensures Delete(Delete(prev, id), id) == Delete(prev, id)
  {
    var once := Delete(prev, id);
    IdsAt(once, id);
    assert !HasId(once, id) by {
      forall i | 0 <= i < |once| ensures once[i].id != id {
        assert once[i] in once;
      }
    }
    DeleteAbsent(once, id);
  }

  /** Deleting the record just added restores the previous list exactly, provided the
      generated identifier was not already in use. */
  lemma AddThenDelete(prev: seq<Transaction>, d: Draft, id: string)
    requires !HasId(prev, id)
    ensures Delete(Add(prev, d, id), id) == prev
  {
    var added := Add(prev, d, id);
    assert added[1..] == prev;
    DeleteAbsent(prev, id);
  }

  /** Adding under a fresh identifier keeps identifiers unique. */
  lemma AddKeepsUnique(prev: seq<Transaction>, d: Draft, id: string)
    requires UniqueIds(prev) && !HasId(prev, id)
    ensures UniqueIds(Add(prev, d, id))
  {
    var r := Add(prev, d, id);
    IdsAt(prev, id);
    IdsAt(r, id);
    forall i, j | 0 <= i < j < |r| ensures r[i].id != r[j].id {
      assert r[j] == prev[j - 1];
      if i > 0 {
        assert r[i] == prev[i - 1];
      }
    }
  }

  /** A subsequence of a list with unique identifiers has unique identifiers. */
  lemma {:induction false} SubsequenceKeepsUnique(a: seq<Transaction>, b: seq<Transaction>)
    requires IsSubsequence(a, b) && UniqueIds(b)
    ensures UniqueIds(a)
    ensures forall t :: t in a ==> t in b
    decreases |b|
  {
    IdsAt(a, "");
    IdsAt(b, "");
    if a != [] {
      IdsAt(a[1..], "");
      IdsAt(b[1..], "");
      assert UniqueIds(b[1..]) by {
        forall i, j | 0 <= i < j < |b[1..]| ensures b[1..][i].id != b[1..][j].id {
          assert b[1..][i] == b[i + 1] && b[1..][j] == b[j + 1];
        }
      }
      if a[0] == b[0] {
        SubsequenceKeepsUnique(a[1..], b[1..]);
        assert a == [a[0]] + a[1..] && b == [b[0]] + b[1..];
        forall i, j | 0 <= i < j < |a| ensures a[i].id != a[j].id {
          assert a[j] == a[1..][j - 1];
          assert a[j] in b[1..];
          var k :| 0 <= k < |b[1..]| && b[1..][k] == a[j];
          assert b[k + 1] == a[j];
          if i > 0 {
            assert a[i] == a[1..][i - 1];
          }
        }
      } else {
        SubsequenceKeepsUnique(a, b[1..]);
      }
    }
  }

  /** Deleting keeps identifiers unique. */
  lemma DeleteKeepsUnique(prev: seq<Transaction>, id: string)
    requires UniqueIds(prev)
    ensures UniqueIds(Delete(prev, id))
  {
    SubsequenceKeepsUnique(Delete(prev, id), prev);
  }

  /** Among records with distinct identifiers, deleting one that is present removes
      exactly one record. */
  lemma {:induction false} DeleteRemovesOne(prev: seq<Transaction>, id: string)
    requires UniqueIds(prev) && HasId(prev, id)
    ensures |Delete(prev, id)| == |prev| - 1
  {
    IdsAt(prev, id);
    IdsAt(prev[1..], id);
    assert prev == [prev[0]] + prev[1..];
    assert UniqueIds(prev[1..]) by {
      forall i, j | 0 <= i < j < |prev[1..]| ensures prev[1..][i].id != prev[1..][j].id {
        assert prev[1..][i] == prev[i + 1] && prev[1..][j] == prev[j + 1];
      }
    }
    if prev[0].id == id {
      assert !HasId(prev[1..], id) by {
        forall i | 0 <= i < |prev[1..]| ensures prev[1..][i].id != id {
          assert prev[1..][i] == prev[i + 1];
        }
      }
      DeleteAbsent(prev[1..], id);
    } else {
      var k :| 0 <= k < |prev| && prev[k].id == id;
      assert prev[1..][k - 1] == prev[k];
      DeleteRemovesOne(prev[1..], id);
    }
  }

  /** The application state that persists across renders. */
  datatype AppState = AppState(
    transactions: seq<Transaction>,
    slot: Slot,
    insights: seq<AIInsight>,
    loadingInsights: bool)

  /** The storage slot holds exactly the current list. */
  predicate Mirrored(s: AppState) {
    s.slot == Save(s.transactions)
  }

  /** Startup: the initial list comes from the slot and the persist effect immediately
      writes it back; a corrupt slot makes startup fail. */
  function Mount(slot: Slot): (r: Result<AppState, LoadError>)
    ensures r.Success? <==> Load(slot).Success?
    ensures r.Success? ==> Mirrored(r.value) && r.value.transactions == Load(slot).value
    ensures r.Success? ==> r.value.insights == [] && !r.value.loadingInsights
  {
    match Load(slot)
    case Success(xs) => Success(AppState(xs, Save(xs), [], false))
    case Failure(e) => Failure(e)
  }

  /** A new list takes effect and the persist effect writes it to the slot. */
  function Commit(s: AppState, xs: seq<Transaction>): (r: AppState)
    ensures Mirrored(r) && r.transactions == xs
    ensures r.insights == s.insights && r.loadingInsights == s.loadingInsights
  {
    s.(transactions := xs, slot := Save(xs))
  }

  function AddTransaction(s: AppState, d: Draft, id: string): AppState {
    Commit(s, Add(s.transactions, d, id))
  }

  function DeleteTransaction(s: AppState, id: string): AppState {
    Commit(s, Delete(s.transactions, id))
  }

  /** Deleting the record just added restores the whole state, storage slot included. */
  lemma UndoAdd(s: AppState, d: Draft, id: string)
    requires Mirrored(s) && !HasId(s.transactions, id)
    ensures DeleteTransaction(AddTransaction(s, d, id), id) == s
  {
    AddThenDelete(s.transactions, d, id);
  }

  /** Restarting after any sequence of changes shows the list as it was left. */
  lemma Reload(s: AppState)
    requires Mirrored(s)
    ensures Mount(s.slot) == Success(AppState(s.transactions, s.slot, [], false))
  {
    LoadSave(s.transactions);
  }

  /** The first half of the insight refresh: with an empty list nothing happens and no
      request is made; otherwise the loading flag is raised and a request carrying the
      current list is issued. */
  function BeginFetchInsights(s: AppState): (r: (AppState, Option<seq<Transaction>>))
    ensures r.1.None? <==> |s.transactions| == 0
    ensures r.1.None? ==> r.0 == s
    ensures r.1.Some? ==> r.1.value == s.transactions && r.0.loadingInsights
    ensures r.0.transactions == s.transactions && r.0.slot == s.slot
    ensures r.0.insights == s.insights
  {
    if |s.transactions| == 0 then (s, None)
    else (s.(loadingInsights := true), Some(s.transactions))
  }

  /** The second half: the response replaces the insights and the flag drops. */
  function CompleteFetchInsights(s: AppState, response: seq<AIInsight>): (r: AppState)
    ensures r.insights == response && !r.loadingInsights
    ensures r.transactions == s.transactions && r.slot == s.slot
  {
    s.(insights := response, loadingInsights := false)
  }

  /** A refresh over a non-empty list asks about exactly the current list and, once the
      response arrives, shows it with the flag down and the list and slot untouched. */
  lemma InsightRefresh(s: AppState, response: seq<AIInsight>)
    requires |s.transactions| > 0
    ensures BeginFetchInsights(s).1 == Some(s.transactions)
    ensures CompleteFetchInsights(BeginFetchInsights(s).0, response)
              == s.(insights := response, loadingInsights := false)
  {
  }
}

=== FILE: text.dfy ===
/** The JavaScript string operations the dashboard uses to format dates:
    `split`, `join` and character replacement. */
module Text {

  /** Position of the first occurrence of `c` in `s`. */
  function FirstIndex<T(==)>(s: seq<T>, c: T): (i: nat)
    requires c in s
    ensures i < |s| && s[i] == c && c !in s[..i]
  {
    if s[0] == c then 0
    else
      var j := FirstIndex(s[1..], c);
      assert s[..j + 1] == [s[0]] + s[1..][..j];
      j + 1
  }

  /** Any position holding the first occurrence is the one `FirstIndex` finds. */
  lemma FirstIndexUnique<T>(s: seq<T>, c: T, i: nat)
    requires i < |s| && s[i] == c && c !in s[..i]
    ensures FirstIndex(s, c) == i
  {
  }

  /** Appending an element does not move the first occurrence of a value already
      present, and puts that of a new value at the end. */
  lemma FirstIndexSnoc<T>(s: seq<T>, x: T, c: T)
    requires c in s + [x]
    ensures c in s ==> FirstIndex(s + [x], c) == FirstIndex(s, c)
    ensures c !in s ==> FirstIndex(s + [x], c) == |s|
  {
    if c in s {
      var f := FirstIndex(s, c);
      assert (s + [x])[..f] == s[..f];
      FirstIndexUnique(s + [x], c, f);
    } else {
      assert (s + [x])[..|s|] == s;
      FirstIndexUnique(s + [x], c, |s|);
    }
  }

  /** `s.split(sep)` for a one-character separator: the maximal pieces between
      separators; a string without the separator splits into itself alone. */
  function Split(s: string, sep: char): (parts: seq<string>)
    ensures |parts| >= 1
    ensures forall i :: 0 <= i < |parts| ==> sep !in parts[i]
    decreases |s|
  {
    if sep !in s then [s]
    else
      var i := FirstIndex(s, sep);
      [s[..i]] + Split(s[i + 1..], sep)
  }

  /** The pieces after the first are the split of what follows the first separator. */
  lemma SplitTail(s: string, sep: char)
    requires sep in s
    ensures Split(s, sep)[1..] == Split(s[FirstIndex(s, sep) + 1..], sep)
  {
    var i := FirstIndex(s, sep);
    assert Split(s, sep) == [s[..i]] + Split(s[i + 1..], sep);
  }

  /** `parts.join(sep)`: the pieces with one separator between neighbours. */
  function Join(parts: seq<string>, sep: char): string {
    if |parts| == 0 then ""
    else if |parts| == 1 then parts[0]
    else parts[0] + [sep] + Join(parts[1..], sep)
  }

  /** `s` with every `a` replaced by `b`. */
  function Replace(s: string, a: char, b: char): (r: string)
    ensures |r| == |s|
  {
    seq(|s|, i requires 0 <= i < |s| => if s[i] == a then b else s[i])
  }

  lemma ReplaceAppend(x: string, y: string, a: char, b: char)
    ensures Replace(x + y, a, b) == Replace(x, a, b) + Replace(y, a, b)
  {
  }

  lemma JoinCons(p: string, ps: seq<string>, sep: char)
    requires |ps| >= 1
    ensures Join([p] + ps, sep) == p + [sep] + Join(ps, sep)
  {
    assert ([p] + ps)[1..] == ps;
  }

  lemma ReplaceAbsent(s: string, a: char, b: char)
    requires a !in s
    ensures Replace(s, a, b) == s
  {
  }

  /** Replacing in a string whose first `a` sits at `i`. */
  lemma ReplaceAt(s: string, i: nat, a: char, b: char)
    requires i < |s| && s[i] == a && a !in s[..i]
    ensures Replace(s, a, b) == s[..i] + [b] + Replace(s[i + 1..], a, b)
  {
    var head, rest := s[..i], s[i + 1..];
    assert s == head + [a] + rest;
    ReplaceAppend(head + [a], rest, a, b);
    ReplaceAppend(head, [a], a, b);
    ReplaceAbsent(head, a, b);
    assert Replace([a], a, b) == [b];
  }

  /** Splitting on `a` and joining with `b` replaces every `a` by `b`. */
  lemma {:induction false} JoinSplit(s: string, a: char, b: char)
    ensures Join(Split(s, a), b) == Replace(s, a, b)
    decreases |s|
  {
    if a !in s {
      ReplaceAbsent(s, a, b);
    } else {
      var i := FirstIndex(s, a);
      var rest := s[i + 1..];
      assert Split(s, a) == [s[..i]] + Split(rest, a);
      JoinSplit(rest, a, b);
      JoinCons(s[..i], Split(rest, a), b);
      ReplaceAt(s, i, a, b);
    }
  }

  /** Joining with the separator that was split on gives back the original string. */
  lemma JoinSplitInverse(s: string, sep: char)
    ensures Join(Split(s, sep), sep) == s
  {
    JoinSplit(s, sep, sep);
    assert Replace(s, sep, sep) == s;
  }
}

=== FILE: types.dfy ===
/** The data model: expense categories, transactions, drafts and AI insights (types.ts). */
module Types {
  import opened Wrappers

  /** The closed enumeration of expense categories. */
  datatype Category = Food | Transport | Shopping | Entertainment | Bills | Health | Other

  /** The string value each category carries at runtime (a string-valued enum). */
  function CategoryName(c: Category): string {
    match c
    case Food => "Food & Dining"
    case Transport => "Transportation"
    case Shopping => "Shopping"
    case Entertainment => "Entertainment"
    case Bills => "Bills & Utilities"
    case Health => "Health & Wellness"
    case Other => "Other"
  }

  /** The enum's members in declaration order, as `Object.values(Category)` lists them. */
  const AllCategories: seq<Category> :=
    [Food, Transport, Shopping, Entertainment, Bills, Health, Other]

  /** Recognises a category from its string value; `None` for any other string. */
  function ParseCategory(s: string): (r: Option<Category>)
    ensures r.Some? ==> CategoryName(r.value) == s
    ensures r.None? ==> forall c: Category :: CategoryName(c) != s
  {
    if s == "Food & Dining" then Some(Food)
    else if s == "Transportation" then Some(Transport)
    else if s == "Shopping" then Some(Shopping)
    else if s == "Entertainment" then Some(Entertainment)
    else if s == "Bills & Utilities" then Some(Bills)
    else if s == "Health & Wellness" then Some(Health)
    else if s == "Other" then Some(Other)
    else None
  }

  /** Every category is listed once, the seven string values are pairwise distinct,
      and `Other` is among them. */
  lemma CategoriesEnumerated()
    ensures |AllCategories| == 7
    ensures forall c: Category :: c in AllCategories
    ensures forall i, j :: 0 <= i < j < |AllCategories| ==>
              CategoryName(AllCategories[i]) != CategoryName(AllCategories[j])
    ensures Other in AllCategories && CategoryName(Other) == "Other"
  {
    forall c: Category ensures c in AllCategories {
      match c
      case Food => assert AllCategories[0] == c;
      case Transport => assert AllCategories[1] == c;
      case Shopping => assert AllCategories[2] == c;
      case Entertainment => assert AllCategories[3] == c;
      case Bills => assert AllCategories[4] == c;
      case Health => assert AllCategories[5] == c;
      case Other => assert AllCategories[6] == c;
    }
  }

  /** Reading a category back from its string value gives the same category, so the
      map from strings to categories is injective. */
  lemma CategoryNameRoundTrip(c: Category)
    ensures ParseCategory(CategoryName(c)) == Some(c)
    ensures forall d: Category :: CategoryName(d) == CategoryName(c) ==> d == c
  {
  }

  /** An expense record. `amount` is in hundredths of a rupee; `category` holds the
      string the record carries at runtime, normally the value of a `Category`. */
  datatype Transaction = Transaction(
    id: string,
    amount: int,
    category: string,
    description: string,
    date: string)

  /** A transaction before an identifier is assigned (`Omit<Transaction, 'id'>`). */
  datatype Draft = Draft(amount: int, category: string, description: string, date: string)

  /** The record a draft becomes once it is given an identifier. */
  function WithId(d: Draft, id: string): Transaction {
    Transaction(id, d.amount, d.category, d.description, d.date)
  }

  /** The draft part of a record: everything except its identifier. */
  function DraftOf(t: Transaction): Draft {
    Draft(t.amount, t.category, t.description, t.date)
  }

  /** Attaching an identifier keeps every field of the draft and adds nothing else. */
  lemma WithIdKeepsDraft(d: Draft, id: string)
    ensures DraftOf(WithId(d, id)) == d && WithId(d, id).id == id
    ensures forall t: Transaction :: t == WithId(DraftOf(t), t.id)
  {
  }

  /** True when a record's category is one of the seven listed values. */
  predicate HasListedCategory(t: Transaction) {
    ParseCategory(t.category).Some?
  }

  /** The three kinds an insight can have. */
  datatype InsightKind = Saving | Warning | Tip

  function InsightKindName(k: InsightKind): string {
    match k
    case Saving => "saving"
    case Warning => "warning"
    case Tip => "tip"
  }

  /** Recognises an insight kind from its string value; exactly three strings are accepted. */
  function ParseInsightKind(s: string): (r: Option<InsightKind>)
    ensures r.Some? <==> s == "saving" || s == "warning" || s == "tip"
    ensures r.Some? ==> InsightKindName(r.value) == s
  {
    if s == "saving" then Some(Saving)
    else if s == "warning" then Some(Warning)
    else if s == "tip" then Some(Tip)
    else None
  }

  /** A short piece of advice produced from the transaction list; never persisted. */
  datatype AIInsight = AIInsight(title: string, content: string, kind: InsightKind)
}

=== FILE: wrappers.dfy ===
/** Wrappers shared by the model. `Option` is failure-compatible, so `:-` works on it;
    `Result` is a plain sum of a value and an error. */
module Wrappers {

  /** A value that may be missing: `null`/`undefined` in the modelled program. */
  datatype Option<+T> = None | Some(value: T) {

    predicate IsFailure() {
      None?
    }

    function PropagateFailure<U>(): Option<U>
      requires None?
    {
      None
    }

    function Extract(): T
      requires Some?
    {
      value
    }

    function GetOr(default: T): T {
      match this
      case Some(v) => v
      case None => default
    }
  }

  /** The outcome of an operation that can throw: a value, or the error it raised. */
  datatype Result<+R, +E> = Success(value: R) | Failure(error: E)
}
